=== FILE: README.md ===
# Kubernetes resource reconciliation, modelled in Dafny

This project models the reconciliation engine of the Ansible `kubernetes`
action plugin (`clustering/action_plugins/kubernetes.py`). The plugin is
given a list of Kubernetes objects and a desired `state`. For each object it
works out the REST collection URL from the object's `kind` and `namespace`
(the `KIND_URL` table). It then makes the cluster match the state:

- `present` POSTs the object;
- `absent` DELETEs it;
- `replace` PUTs it;
- `update` PATCHes it.

An HTTP 409 ("already exists") or a 404 on delete counts as "nothing to do".
Any other status of 400 or more fails the Ansible task. The plugin reports `changed`
as the OR over all objects.

Modules, in dependency order:

- `Common`: the `Option` type and ASCII lower-casing, used for the kind lookup.
- `Documents`: the parsed objects (`kind`, `metadata.name`, `metadata.namespace`), a document that is one object or a list, and response bodies.
- `Kinds`: the fourteen supported kinds and their URL templates. It also holds the `{namespace}` substitution (Python's `str.replace`) and URL resolution for one object.
- `Http`: the `api_request` helper. Covers verb dispatch, the bearer-token header, and the `-1` status and unknown-method errors. The network is a parameter `Transport = Request -> Response`.
- `Outcomes`: the failures the plugin reports and their exact messages, plus the outcome of one object.
- `Reconcilers`: the four state handlers. Each is stated against a small reference decision table (`Verb`, `SoftStatus`, `Classify`).
- `Action`: argument validation, the target endpoint, the per-object step and the batch loop of `run`.
- `MockApi`: an in-memory API server. It is used to prove idempotence of `present` and `absent`, and to work the documented examples through the whole run.

Where the plugin's code and its documentation disagree, the model follows the code, with one exception: the replace/update read-back after a 409, which is recorded under Findings and modelled in corrected form.

- A rejected request (status of 400 or more, other than the soft status) still reports `changed: true`. The handlers return `True` after setting `failed` (lines 132-135, 148-151, 168-171, 187-190).
- After a create hits 409, the read-back `GET` is sent without basic auth (line 130). Bearer tokens are still attached, because `api_request` adds them to every request.
- The documentation says token and basic auth are mutually exclusive. The code checks no such thing: when both are given, both are sent.
- When both `template` and `inline` are given, the rendered template wins (lines 287-291).

## Model

| member | source | states |
|---|---|---|
| Kinds.FromNameInverse | clustering/action_plugins/kubernetes.py:75-90 | the kind table has exactly fourteen keys; looking up a kind's own name finds that kind, and any hit's name is the key that was looked up |
| Kinds.TemplateRendersExpectedPath | clustering/action_plugins/kubernetes.py:75-90 | substituting a namespace into any table entry gives `/api/v1/namespaces/<ns>/<plural>` for namespaced kinds and `/api/v1/<plural>` for Namespace, Node and PersistentVolume |
| Kinds.ClusterScopedIgnoresNamespace | clustering/action_plugins/kubernetes.py:79-81 | a cluster-scoped kind resolves to the same path whatever namespace the object names |
| Kinds.ParseKindCaseInsensitive | clustering/action_plugins/kubernetes.py:317-319 | the raw `kind` is accepted as kind k exactly when its lower-cased form is k's table key, and equally exactly when it spells k's key up to ASCII case (each character is the key's own or, for a lower-case letter, its capital); lower-casing the kind first changes nothing |
| Kinds.PodSpellings | clustering/action_plugins/kubernetes.py:317-319 | `Pod`, `pod` and `POD` all resolve to the pod kind |
| Kinds.UrlTemplatesAreTheTable | clustering/action_plugins/kubernetes.py:75-90 | each of the fourteen kinds' URL templates is, character for character, the path the kind table gives it |
| Kinds.Resolve | clustering/action_plugins/kubernetes.py:313-325 | an object without metadata goes to the bare target endpoint; resolution fails exactly when metadata is present and the lower-cased kind is not in the table, and the failure names that lower-cased kind |
| Kinds.ResolveKnownKind | clustering/action_plugins/kubernetes.py:314-323 | for a known kind the URL is the target endpoint followed by the kind's path in the object's namespace, or in `default` when it names none |
| Http.ParseMethodInverse | clustering/action_plugins/kubernetes.py:103-116 | exactly the five names GET, POST, PUT, DELETE, PATCH are HTTP methods, and each parses back to itself |
| Http.WithToken | clustering/action_plugins/kubernetes.py:99-102 | with a non-empty token the headers carry `Authorization: Bearer <token>` and otherwise keep the caller's entries; with none the headers are unchanged |
| Http.Send | clustering/action_plugins/kubernetes.py:95-123 | an unknown method sends nothing and yields status -1, no body and the "not an proper http method" error; a known one sends exactly one request with that method, URL and auth, a body only for POST/PUT/PATCH and the token header, with the caller's headers exactly as given when there is no token; passes the response through, and records exactly one "not executed" error, naming the URL and method, exactly when the status is -1 |
| Reconcilers.Create | clustering/action_plugins/kubernetes.py:126-135 | POSTs the object with a JSON content type; on 409 reads the named object back with a bare GET (no body, no content type, no basic auth) and reports unchanged; on other statuses of 400 or more records exactly one failure, the rejection naming the URL and response body, and reports changed; a nameless object hitting 409 records only the missing-name failure; status -1 records only the "not executed" failure; otherwise changed with the server's body and no failure |
| Reconcilers.Delete | clustering/action_plugins/kubernetes.py:138-151 | DELETEs `<collection>/<name>`; 404 reports unchanged with "already absent"; other statuses of 400 or more record exactly one failure, the rejection naming the object URL and response body; status -1 records only the "not executed" failure; otherwise changed with "Successfully deleted" and no failure; a missing name sends nothing and fails |
| Reconcilers.Rewrite | clustering/action_plugins/kubernetes.py:154-190 | replace PUTs and update PATCHes `<collection>/<name>` with their content types; on 409 reads that same object back with a bare GET (no body, no content type) carrying the configured basic auth and reports unchanged; other statuses of 400 or more record exactly one failure, the rejection naming the object URL and response body; status -1 records only the "not executed" failure; a missing name sends nothing and fails |
| Reconcilers.RewriteAsWritten | clustering/action_plugins/kubernetes.py:162-166 | with the code's URL handling, the 409 read-back goes to `<collection>/<name>/<name>`, never the object just written |
| Reconcilers.Reconcile | clustering/action_plugins/kubernetes.py:327-334 | each state goes to its handler; every request carries the token; for absent, replace and update an object without a name sends nothing and fails with the state's missing-name message (a nameless object is still POSTed under present) |
| Reconcilers.ReconcileFollowsVerdict | clustering/action_plugins/kubernetes.py:126-190 | for a named object the outcome follows the decision table: the soft status (404 for absent, 409 otherwise) means unchanged, and everything else means changed, with a rejection naming the URL and response body exactly on the other statuses of 400 or more, and then that rejection as the only failure, so it is the message |
| Reconcilers.MissingNameSendsNothing | clustering/action_plugins/kubernetes.py:139-144 | for absent, replace and update an object with no name makes no request, does not report a change and fails with that state's missing-name message |
| Action.Validate | clustering/action_plugins/kubernetes.py:266-297 | each of the five checks (endpoint, both-or-neither credentials, boolean insecure, state, template-or-inline) fails exactly when its condition holds; there are no errors exactly when the arguments are well formed; the last error is the last failing check in source order |
| Action.BasicAuthOf | clustering/action_plugins/kubernetes.py:271-277 | basic auth is used exactly when both username and password are given, and carries those two values |
| Action.TargetEndpoint | clustering/action_plugins/kubernetes.py:303-307 | the target is `http://<endpoint>` when insecure and `https://<endpoint>` otherwise |
| Action.ProcessItem | clustering/action_plugins/kubernetes.py:313-334 | an object of unknown kind fails with the invalid-kind message, sends nothing and is not dispatched; any other object, including one without metadata that resolves to the bare target, is reconciled at its resolved URL, and its first request uses the state's verb on that URL (plus `/<name>` except for present) |
| Action.FoldBodies | clustering/action_plugins/kubernetes.py:310-337 | the batch collects one body per object, in input order |
| Action.FoldChanged | clustering/action_plugins/kubernetes.py:309-336 | the batch is changed exactly when some object changed it |
| Action.FoldFailed | clustering/action_plugins/kubernetes.py:313-337 | the batch fails exactly when some object failed, and every object's failures are kept in the batch's failures |
| Action.FoldAuthorized | clustering/action_plugins/kubernetes.py:99-102 | every request of the batch carries the bearer token when one is configured |
| Action.ChangedNeverReverts | clustering/action_plugins/kubernetes.py:336 | once `changed` is true after some prefix of the objects, no later object turns it back to false |
| Action.Batch | clustering/action_plugins/kubernetes.py:309-337 | one body per object, in order; changed is the OR of the objects' changes; failed exactly when some object failed; the failures and the requests are the objects' own, concatenated in input order; every request authorized |
| Action.FoldInOrder | clustering/action_plugins/kubernetes.py:313-337 | the fold's failures and requests are the per-object lists joined first to last, against a head-first reference concatenation |
| Action.FoldMessage | clustering/action_plugins/kubernetes.py:313-337 | the fold's message is the last failure of the last outcome that failed, as each failure overwrites `msg` |
| Action.BatchMessage | clustering/action_plugins/kubernetes.py:313-337 | a batch's message is the last failure of the last object that failed, whatever later successful objects did |
| Action.UnknownKindFailsBatch | clustering/action_plugins/kubernetes.py:318-322 | a single object of unknown kind fails the whole batch with its lower-cased kind among the failures; that object sends no request, and `changed` is decided by the other objects alone |
| Action.Run | clustering/action_plugins/kubernetes.py:249-339 | invalid arguments send nothing, change nothing and fail with the last failing check's message; valid ones process every object of the document (a single object counts as a list of one), sending only authorized requests |
| Action.ItemUrl | clustering/action_plugins/kubernetes.py:303-323 | against the target `<scheme>://<endpoint>`, an object's first request for a known kind goes to the scheme, endpoint and the kind's path in the object's namespace, plus `/<name>` for absent, replace and update |
| MockApi.PresentIsIdempotent | clustering/action_plugins/kubernetes.py:126-135 | against a server that rejects duplicates with 409, the first create stores the object and reports changed exactly when it was missing; the second call reports unchanged without failing, returns the stored object and leaves the store as the first call left it |
| MockApi.AbsentIsIdempotent | clustering/action_plugins/kubernetes.py:138-151 | the first delete removes the object and reports changed exactly when it was there; the second call reports unchanged with "already absent", without failing, and leaves the store as the first call left it |
| MockApi.AsWrittenRefetchMissesStoredObject | clustering/action_plugins/kubernetes.py:162-166 | when a replace conflicts with a stored object, the code's read-back returns no object, while the corrected read-back returns the stored one |
| MockApi.CreateNamespaceOnEmptyStore | clustering/kubernetes.py:102-142 | the documented inline namespace example, run against an empty server, sends exactly one request, to `https://<endpoint>/api/v1/namespaces`, reports changed without failing and returns the created object |
| MockApi.CreateNamespaceAgain | clustering/action_plugins/kubernetes.py:128-131 | running the same example again reports unchanged, does not fail and returns the stored object |
| MockApi.RemoveMissingNamespace | clustering/action_plugins/kubernetes.py:146-147 | removing a namespace that does not exist reports unchanged with "Resource name '<name>' already absent" |
| Common.Lower | clustering/action_plugins/kubernetes.py:317 | `.lower()` keeps the length, turns each capital A-Z into the letter 32 code points above it, and keeps every other character |
| Common.LowerMatchesUpToCase | clustering/action_plugins/kubernetes.py:317-319 | for a key without capitals, lower-casing a string gives the key exactly when the string spells the key up to ASCII case |
| Kinds.SubstituteSkipsPrefix | clustering/action_plugins/kubernetes.py:323 | `str.replace` of `{namespace}` passes a prefix without `{` through unchanged |
| Kinds.SubstituteLeading | clustering/action_plugins/kubernetes.py:323 | `str.replace` turns a leading `{namespace}` into the namespace and carries on with the rest |
| Kinds.SubstituteNothing | clustering/action_plugins/kubernetes.py:323 | `str.replace` leaves a string without `{` as it is |
| Documents.Items | clustering/action_plugins/kubernetes.py:300-301 | a single document becomes a one-element list and a list is kept as it is |
| Action.DocumentOf | clustering/action_plugins/kubernetes.py:287-291 | the rendered template is used when a template is given, even if `inline` is too; otherwise the inline document |
| Outcomes.ValidationMessagesDiffer | clustering/action_plugins/kubernetes.py:266-294 | the five argument checks have pairwise different messages, so the message says which check failed |
| Outcomes.UnknownKindMessageNamesKind | clustering/action_plugins/kubernetes.py:322 | the invalid-kind message determines the kind it reports |
| Outcomes.MissingNameMessageNamesState | clustering/action_plugins/kubernetes.py:140-178 | the missing-name messages of the four states differ, so the message says which operation lacked a name |
| MockApi.BogusKindFails | clustering/action_plugins/kubernetes.py:318-322 | an object of kind `Bogus` fails the run with "invalid resource kind specified in the data: 'bogus'" and sends nothing |

## Left out

- Template rendering and YAML parsing (`get_template_source`, `template`, lines 193-246) are left out. The rendered document is a parameter of `Action.Run`.
- The `requests` calls and `json.loads` of response text are left out. The cluster is the `Transport` function parameter, and bodies arrive already parsed.
- The transport is a pure function, so one run cannot observe its own earlier writes. Effects on server state are modelled across runs by `MockApi`.
- `ActionBase.run`, `task_vars` and the `global token` plumbing are left out. The token is passed as a value.
- The JSON encoding of the rejection and "Failed to execute the API request" messages is left out. The model keeps the failure's fields, and `Text` gives only the fixed message text.
- `str.lower()` on non-ASCII letters is left out. `Common.Lower` folds ASCII only, which is all the fourteen keys need.
- Objects that are not mappings, and non-string `kind`, `name` or `namespace` values, are left out. The model's `Item` is always a mapping with optional string fields.
- `api_request` sends a body only when it is truthy, so Python would skip an empty mapping. The model always sends the object for POST, PUT and PATCH.
- In the code, a missing name sets `failed` and then crashes on `url + '/' + None`. The model stops at the failure and sends nothing. The same applies to a 409 on create for an object with no name; that case uses the model's own message, "Missing a named resource in object metadata when trying to fetch an existing resource".
- At line 178 the code calls `json(...)`, which would raise. The model treats it as the evidently intended JSON-encoded message.
- In the code, after an unknown kind it still dispatches, with `url` unbound or left over from the previous object. The model skips that object.
- `state` values outside present, absent, replace and update leave `item_changed` unbound in the code. The model's `State` type has only the four values.
- On a validation failure the code's result has no `changed` key. The model reports `changed: false`.
- The code collects the per-object bodies but never returns them. The model returns them so that they can be stated about.
- Reconcilers.Rewrite: `Reconcile`, and through it `Action.Run`, uses the corrected replace/update read-back after a 409 (`<collection>/<name>`), not the code's `<collection>/<name>/<name>` at lines 166 and 185. The code's version is `Reconcilers.RewriteAsWritten`; see Findings.

## Findings

| source | as written | input that shows it | evidently intended | confidence | as-written member | corrected member |
|---|---|---|---|---|---|---|
| clustering/action_plugins/kubernetes.py:162-166 (and 181-185) | `url` already ends in `/<name>`, and the 409 read-back appends `/<name>` again | state `replace`, a `pod` named `web` in `default`, PUT answered 409: the read-back goes to `https://h/api/v1/namespaces/default/pods/web/web` | read back `https://h/api/v1/namespaces/default/pods/web`, the object just written | high, not executed | Reconcilers.RewriteAsWritten | Reconcilers.Rewrite |

=== FILE: action.dfy ===
/** The action's entry point: argument validation, credential assembly,
    target-endpoint construction, and the batch loop that reconciles every
    document in order and folds the per-document outcomes into one result. */
module Action {
  import opened Common
  import opened Documents
  import opened Http
  import opened Outcomes
  import Kinds
  import opened Reconcilers

  /** The `insecure` argument: a boolean, or some other value the run refuses.
      An absent argument is `Flag(false)`. */
  datatype FlagArg = Flag(value: bool) | NotBool(raw: string)

  /** The Ansible task arguments the run reads. `template` is a template path, turned
      into a document by the caller-supplied renderer; `inline` is a document. */
  datatype Args = Args(
    apiEndpoint: Option<string>,
    username: Option<string>,
    password: Option<string>,
    token: Option<string>,
    insecure: FlagArg,
    template: Option<string>,
    inline: Option<Document>,
    state: Option<State>)

  /** The arguments the run accepts before sending anything. */
  predicate WellFormed(a: Args) {
    && a.apiEndpoint.Some?
    && a.username.Some? == a.password.Some?
    && a.insecure.Flag?
    && a.state.Some?
    && (a.template.Some? || a.inline.Some?)
  }

  /** The check whose message the run reports when several fail: the plugin
      runs the checks in a fixed order and each failure overwrites `msg`, so
      the last failing check in that order wins. */
  function LastFailedCheck(a: Args): Option<Failure> {
    if a.template.None? && a.inline.None? then Some(MissingDocument)
    else if a.state.None? then Some(MissingState)
    else if a.insecure.NotBool? then Some(InsecureNotBool)
    else if a.username.Some? != a.password.Some? then Some(HalfCredentials)
    else if a.apiEndpoint.None? then Some(MissingEndpoint)
    else None
  }

  function When(failed: bool, f: Failure): seq<Failure> {
    if failed then [f] else []
  }

  /** Every failed argument check, in checking order: endpoint, credential
      pair, `insecure`, `state`, document. */
  function Validate(a: Args): (errs: seq<Failure>)
    ensures MissingEndpoint in errs <==> a.apiEndpoint.None?
    ensures HalfCredentials in errs <==> a.username.Some? != a.password.Some?
    ensures InsecureNotBool in errs <==> a.insecure.NotBool?
    ensures MissingState in errs <==> a.state.None?
    ensures MissingDocument in errs <==> a.template.None? && a.inline.None?
    ensures errs == [] <==> WellFormed(a)
    ensures errs != [] ==> LastFailedCheck(a) == Some(errs[|errs| - 1])
  {
    When(a.apiEndpoint.None?, MissingEndpoint)
    + When(a.username.Some? != a.password.Some?, HalfCredentials)
    + When(a.insecure.NotBool?, InsecureNotBool)
    + When(a.state.None?, MissingState)
    + When(a.template.None? && a.inline.None?, MissingDocument)
  }

  /** The basic-auth pair is formed exactly when both halves are given. */
  function BasicAuthOf(username: Option<string>, password: Option<string>): (auth: Option<BasicAuth>)
    ensures auth.Some? <==> username.Some? && password.Some?
    ensures auth.Some? ==> auth.value.username == username.value && auth.value.password == password.value
  {
    if username.Some? && password.Some? then Some(BasicAuth(username.value, password.value)) else None
  }

  function Scheme(insecure: bool): string {
    if insecure then "http" else "https"
  }

  /** `<scheme>://<api_endpoint>`, where the scheme is `http` exactly when the
      run is insecure. */
  function TargetEndpoint(insecure: bool, endpoint: string): (target: string)
    ensures |target| > 4 && target[..4] == "http"
    ensures target[4] == ':' <==> insecure
    ensures insecure ==> target == "http://" + endpoint
    ensures !insecure ==> target == "https://" + endpoint
  {
    Scheme(insecure) + "://" + endpoint
  }

  /** One turn of the batch loop: resolve the document's URL and reconcile it.
      A document of unknown kind records the failure and is not dispatched. */
  function ProcessItem(state: State, target: string, c: Credentials, t: Transport, item: Item): (o: ItemOutcome)
    ensures AllAuthorized(o.sent, c.token)
    ensures Kinds.Resolve(target, item).NoSuchKind? ==>
      o == ItemOutcome(false, Skipped, [UnknownKind(Kinds.Resolve(target, item).kind)], [])
    ensures Kinds.Resolve(target, item).Endpoint? ==>
      o == Reconcile(state, t, c, Kinds.Resolve(target, item).url, item)
    ensures Kinds.Resolve(target, item).Endpoint? && (state == Present || item.Name().Some?) ==>
      |o.sent| >= 1 && o.sent[0].verb == Verb(state)
      && o.sent[0].url == PrimaryUrl(state, Kinds.Resolve(target, item).url, item)
  {
    match Kinds.Resolve(target, item)
    case NoSuchKind(kind) => ItemOutcome(false, Skipped, [UnknownKind(kind)], [])
    case Endpoint(url) =>
      if state == Present || item.Name().Some? then
        ReconcileFollowsVerdict(state, t, c, url, item);
        Reconcile(state, t, c, url, item)
      else
        Reconcile(state, t, c, url, item)
  }

  /** What the run reports: `changed`, every failure in the order recorded (the
      run is failed when there is one, and the last one is the message, as each
      failure overwrites `msg`), the collected bodies, and every request sent,
      in order. */
  datatype RunResult = RunResult(changed: bool, failures: seq<Failure>, bodies: seq<Payload>, sent: seq<Request>) {

    predicate Failed() {
      failures != []
    }

    function Msg(): Option<string> {
      if failures == [] then None else Some(failures[|failures| - 1].Text())
    }
  }

  /** The aggregation of the batch loop as a left fold over per-document
      outcomes: `changed` starts false and is or-ed with each flag; failures,
      bodies and requests are appended. */
  function Fold(outcomes: seq<ItemOutcome>): RunResult
    decreases |outcomes|
  {
    if outcomes == [] then RunResult(false, [], [], [])
    else
      var prev := Fold(outcomes[..|outcomes| - 1]);
      var o := outcomes[|outcomes| - 1];
      RunResult(prev.changed || o.changed, prev.failures + o.failures, prev.bodies + [o.body], prev.sent + o.sent)
  }

  /** Exactly one body per outcome, in order. */
  lemma {:induction false} FoldBodies(outcomes: seq<ItemOutcome>)
    ensures |Fold(outcomes).bodies| == |outcomes|
    ensures forall i :: 0 <= i < |outcomes| ==> Fold(outcomes).bodies[i] == outcomes[i].body
    decreases |outcomes|
  {
    if outcomes != [] {
      FoldBodies(outcomes[..|outcomes| - 1]);
    }
  }

  /** The fold is changed exactly when some outcome reported a change. */
  lemma {:induction false} FoldChanged(outcomes: seq<ItemOutcome>)
    ensures Fold(outcomes).changed <==> exists i :: 0 <= i < |outcomes| && outcomes[i].changed
    decreases |outcomes|
  {
    if outcomes != [] {
      var init := outcomes[..|outcomes| - 1];
      FoldChanged(init);
      if Fold(init).changed {
        var i :| 0 <= i < |init| && init[i].changed;
        assert outcomes[i] == init[i];
      }
      if exists i :: 0 <= i < |outcomes| && outcomes[i].changed {
        var i :| 0 <= i < |outcomes| && outcomes[i].changed;
        if i < |init| {
          assert init[i] == outcomes[i];
        }
      }
    }
  }

  /** The fold is failed exactly when some outcome recorded a failure, and
      every outcome's failures are kept. */
  lemma {:induction false} FoldFailed(outcomes: seq<ItemOutcome>)
    ensures Fold(outcomes).Failed() <==> exists i :: 0 <= i < |outcomes| && outcomes[i].failures != []
    ensures forall i, f :: 0 <= i < |outcomes| && f in outcomes[i].failures ==> f in Fold(outcomes).failures
    decreases |outcomes|
  {
    if outcomes != [] {
      var init := outcomes[..|outcomes| - 1];
      FoldFailed(init);
      if Fold(init).Failed() {
        var i :| 0 <= i < |init| && init[i].failures != [];
        assert outcomes[i] == init[i];
      }
      if exists i :: 0 <= i < |outcomes| && outcomes[i].failures != [] {
        var i :| 0 <= i < |outcomes| && outcomes[i].failures != [];
        if i < |init| {
          assert init[i] == outcomes[i];
        }
      }
      forall i, f | 0 <= i < |outcomes| && f in outcomes[i].failures ensures f in Fold(outcomes).failures {
        if i < |init| {
          assert init[i] == outcomes[i];
        }
      }
    }
  }

  /** Every request of the fold carries the bearer token when every outcome's
      requests do. */
  lemma {:induction false} FoldAuthorized(outcomes: seq<ItemOutcome>, token: Option<string>)
    requires forall i :: 0 <= i < |outcomes| ==> AllAuthorized(outcomes[i].sent, token)
    ensures AllAuthorized(Fold(outcomes).sent, token)
    decreases |outcomes|
  {
    if outcomes != [] {
      var init := outcomes[..|outcomes| - 1];
      FoldAuthorized(init, token);
      var prev := Fold(init);
      var o := outcomes[|outcomes| - 1];
      forall i | 0 <= i < |prev.sent + o.sent| ensures Authorized((prev.sent + o.sent)[i], token) {
        if i >= |prev.sent| {
          assert (prev.sent + o.sent)[i] == o.sent[i - |prev.sent|];
        }
      }
    }
  }

  /** Each outcome's failures, in outcome order. */
  function FailureLists(outcomes: seq<ItemOutcome>): (fss: seq<seq<Failure>>)
    ensures |fss| == |outcomes|
    ensures forall i :: 0 <= i < |outcomes| ==> fss[i] == outcomes[i].failures
  {
    seq(|outcomes|, i requires 0 <= i < |outcomes| => outcomes[i].failures)
  }

  /** Each outcome's requests, in outcome order. */
  function RequestLists(outcomes: seq<ItemOutcome>): (rss: seq<seq<Request>>)
    ensures |rss| == |outcomes|
    ensures forall i :: 0 <= i < |outcomes| ==> rss[i] == outcomes[i].sent
  {
    seq(|outcomes|, i requires 0 <= i < |outcomes| => outcomes[i].sent)
  }

  /** The fold keeps failures and requests object by object, in input order:
      its lists are the per-outcome lists concatenated first to last. */
  lemma {:induction false} FoldInOrder(outcomes: seq<ItemOutcome>)
    ensures Fold(outcomes).failures == Flatten(FailureLists(outcomes))
    ensures Fold(outcomes).sent == Flatten(RequestLists(outcomes))
    decreases |outcomes|
  {
    if outcomes != [] {
      var init := outcomes[..|outcomes| - 1];
      var o := outcomes[|outcomes| - 1];
      FoldInOrder(init);
      assert FailureLists(outcomes) == FailureLists(init) + [o.failures];
      assert RequestLists(outcomes) == RequestLists(init) + [o.sent];
      FlattenSnoc(FailureLists(init), o.failures);
      FlattenSnoc(RequestLists(init), o.sent);
    }
  }

  /** The fold's last failure is the last failure of the last outcome that
      failed. */
  lemma {:induction false} FoldLastFailure(outcomes: seq<ItemOutcome>, j: nat)
    requires j < |outcomes| && outcomes[j].failures != []
    requires forall i :: j < i < |outcomes| ==> outcomes[i].failures == []
    ensures var fs := Fold(outcomes).failures;
      fs != [] && fs[|fs| - 1] == outcomes[j].failures[|outcomes[j].failures| - 1]
    decreases |outcomes|
  {
    var init := outcomes[..|outcomes| - 1];
    var o := outcomes[|outcomes| - 1];
    if j < |outcomes| - 1 {
      assert o.failures == [];
      assert Fold(outcomes).failures == Fold(init).failures + [];
      assert init[j] == outcomes[j];
      forall i | j < i < |init| ensures init[i].failures == [] {
        assert init[i] == outcomes[i];
      }
      FoldLastFailure(init, j);
    }
  }

  /** The run's message comes from the last outcome that failed: it is the last
      failure that outcome recorded, as each failure overwrites `msg`. */
  lemma FoldMessage(outcomes: seq<ItemOutcome>, j: nat)
    requires j < |outcomes| && outcomes[j].failures != []
    requires forall i :: j < i < |outcomes| ==> outcomes[i].failures == []
    ensures Fold(outcomes).Msg() == Some(outcomes[j].failures[|outcomes[j].failures| - 1].Text())
  {
    FoldLastFailure(outcomes, j);
  }

  /** Once a prefix of the outcomes has reported a change, the whole fold does:
      the flag never reverts to false. */
  lemma ChangedNeverReverts(outcomes: seq<ItemOutcome>, n: nat)
    requires n <= |outcomes|
    requires Fold(outcomes[..n]).changed
    ensures Fold(outcomes).changed
  {
    FoldChanged(outcomes[..n]);
    FoldChanged(outcomes);
    var i :| 0 <= i < n && outcomes[..n][i].changed;
    assert outcomes[..n][i] == outcomes[i];
  }

  /** The per-document outcomes of the batch loop, in input order. */
  function ItemOutcomes(items: seq<Item>, state: State, target: string, c: Credentials, t: Transport): (os: seq<ItemOutcome>)
    ensures |os| == |items|
    ensures forall i :: 0 <= i < |items| ==> os[i] == ProcessItem(state, target, c, t, items[i])
  {
    seq(|items|, i requires 0 <= i < |items| => ProcessItem(state, target, c, t, items[i]))
  }

  /** The batch loop: every document is processed, in order, whatever happened
      to the ones before it. */
  function Batch(items: seq<Item>, state: State, target: string, c: Credentials, t: Transport): (r: RunResult)
    ensures |r.bodies| == |items|
    ensures forall i :: 0 <= i < |items| ==> r.bodies[i] == ProcessItem(state, target, c, t, items[i]).body
    ensures r.changed <==> exists i :: 0 <= i < |items| && ProcessItem(state, target, c, t, items[i]).changed
    ensures r.Failed() <==> exists i :: 0 <= i < |items| && ProcessItem(state, target, c, t, items[i]).failures != []
    ensures forall i, f :: 0 <= i < |items| && f in ProcessItem(state, target, c, t, items[i]).failures ==> f in r.failures
    ensures AllAuthorized(r.sent, c.token)
    ensures r.failures == Flatten(FailureLists(ItemOutcomes(items, state, target, c, t)))
    ensures r.sent == Flatten(RequestLists(ItemOutcomes(items, state, target, c, t)))
  {
    var os := ItemOutcomes(items, state, target, c, t);
    FoldInOrder(os);
    FoldBodies(os);
    FoldChanged(os);
    FoldFailed(os);
    FoldAuthorized(os, c.token);
    Fold(os)
  }

  /** A batch's message is the last failure of the last document that failed;
      documents after it that succeed leave it in place. */
  lemma BatchMessage(items: seq<Item>, state: State, target: string, c: Credentials, t: Transport, j: nat)
    requires j < |items| && ProcessItem(state, target, c, t, items[j]).failures != []
    requires forall i :: j < i < |items| ==> ProcessItem(state, target, c, t, items[i]).failures == []
    ensures var fs := ProcessItem(state, target, c, t, items[j]).failures;
      Batch(items, state, target, c, t).Msg() == Some(fs[|fs| - 1].Text())
  {
    FoldMessage(ItemOutcomes(items, state, target, c, t), j);
  }

  /** A document of unknown kind fails the batch with the lower-cased kind in
      the message, sends nothing of its own, and does not stop the others:
      `changed` is still the or of every other document's flag. */
  lemma UnknownKindFailsBatch(items: seq<Item>, k: nat, state: State, target: string, c: Credentials, t: Transport)
    requires k < |items|
    requires Kinds.Resolve(target, items[k]).NoSuchKind?
    ensures var r := Batch(items, state, target, c, t);
      && r.Failed()
      && UnknownKind(Lower(items[k].kind.GetOr(""))) in r.failures
      && ProcessItem(state, target, c, t, items[k]).sent == []
      && (r.changed <==> exists i :: 0 <= i < |items| && i != k && ProcessItem(state, target, c, t, items[i]).changed)
  {
    var r := Batch(items, state, target, c, t);
    assert UnknownKind(Lower(items[k].kind.GetOr(""))) in ProcessItem(state, target, c, t, items[k]).failures;
  }

  /** The document the run works on: the rendered template when a template is
      given (it wins over `inline`), else the inline document. */
  function DocumentOf(a: Args, render: string -> Document): (d: Document)
    requires a.template.Some? || a.inline.Some?
    ensures a.template.Some? ==> d == render(a.template.value)
    ensures a.template.None? ==> d == a.inline.value
  {
    if a.template.Some? then render(a.template.value) else a.inline.value
  }

  /** The whole action. Invalid arguments fail the run before any request is
      sent, with every failed check recorded and the last one as the message.
      Otherwise the document is turned into a list and folded by the batch
      loop against `<scheme>://<api_endpoint>`. */
  function Run(a: Args, render: string -> Document, t: Transport): (r: RunResult)
    ensures !WellFormed(a) ==> r.sent == [] && r.bodies == [] && !r.changed && r.Failed()
    ensures !WellFormed(a) ==> r.failures == Validate(a) && r.Msg() == Some(LastFailedCheck(a).value.Text())
    ensures WellFormed(a) ==> |r.bodies| == |Items(DocumentOf(a, render))|
    ensures AllAuthorized(r.sent, a.token)
  {
    if !WellFormed(a) then RunResult(false, Validate(a), [], [])
    else
      var c := Credentials(BasicAuthOf(a.username, a.password), a.token);
      var target := TargetEndpoint(a.insecure.value, a.apiEndpoint.value);
      var items := Items(DocumentOf(a, render));
      Batch(items, a.state.value, target, c, t)
  }

  /** Valid arguments hand the document list to the batch loop. */
  lemma RunFoldsDocuments(a: Args, render: string -> Document, t: Transport)
    requires WellFormed(a)
    ensures Run(a, render, t)
         == Batch(Items(DocumentOf(a, render)), a.state.value, TargetEndpoint(a.insecure.value, a.apiEndpoint.value),
                  Credentials(BasicAuthOf(a.username, a.password), a.token), t)
  {
  }

  lemma FoldOfOne(o: ItemOutcome)
    ensures Fold([o]) == RunResult(o.changed, o.failures, [o.body], o.sent)
  {
    assert [o][..0] == [];
  }

  /** A single document is folded into a result that is exactly its outcome. */
  lemma BatchOfOne(item: Item, state: State, target: string, c: Credentials, t: Transport)
    ensures var o := ProcessItem(state, target, c, t, item);
      Batch([item], state, target, c, t) == RunResult(o.changed, o.failures, [o.body], o.sent)
  {
    var os := ItemOutcomes([item], state, target, c, t);
    var o := ProcessItem(state, target, c, t, item);
    assert os == [o];
    FoldOfOne(o);
  }

  /** For a document of a known kind, the first request goes to
      `<scheme>://<api_endpoint>` followed by the kind's path in the document's
      namespace (or `"default"`), with the object's name appended for every
      state but `present`. */
  lemma ItemUrl(state: State, insecure: bool, endpoint: string, c: Credentials, t: Transport, item: Item, k: Kinds.Kind)
    requires '{' !in endpoint
    requires item.metadata.Some?
    requires Kinds.ParseKind(item.kind.GetOr("")) == Some(k)
    requires state == Present || item.Name().Some?
    ensures var o := ProcessItem(state, TargetEndpoint(insecure, endpoint), c, t, item);
      var path := Kinds.ExpectedPath(k, item.metadata.value.namespace.GetOr(Kinds.DefaultNamespace));
      && |o.sent| >= 1
      && o.sent[0].url == PrimaryUrl(state, Scheme(insecure) + "://" + endpoint + path, item)
  {
    var target := TargetEndpoint(insecure, endpoint);
    assert '{' !in Scheme(insecure) + "://";
    assert '{' !in target;
    Kinds.ResolveKnownKind(target, item, k);
    var url := Kinds.Resolve(target, item).url;
    ReconcileFollowsVerdict(state, t, c, url, item);
  }
}

=== FILE: common.dfy ===
/** Small shared vocabulary: an optional value, and the ASCII lower-casing that
    the action plugin applies to an object's `kind` before the table lookup. */
module Common {

  /** A value that may be missing, as a Python `dict.get` that can return `None`. */
  datatype Option<+T> = None | Some(value: T) {

    /** The value, or `default` when missing (`d.get(key, default)`). */
    function GetOr(default: T): T {
      match this
      case Some(v) => v
      case None => default
    }
  }

  predicate IsUpper(c: char) {
    'A' <= c <= 'Z'
  }

  /** Lower-cases one ASCII letter and leaves every other character alone. */
  function LowerChar(c: char): (d: char)
    ensures !IsUpper(d)
    ensures !IsUpper(c) ==> d == c
    ensures IsUpper(c) ==> d as int == c as int + 32
  {
    if IsUpper(c) then (c as int + 32) as char else c
  }

  /** `str.lower()` restricted to ASCII letters. */
  function Lower(s: string): (r: string)
    ensures |r| == |s|
    ensures forall i :: 0 <= i < |s| ==> r[i] == LowerChar(s[i])
  {
    seq(|s|, i requires 0 <= i < |s| => LowerChar(s[i]))
  }

  /** `raw` spells `key` up to ASCII case: same length, and each character is
      the key's own or, for a lower-case letter of the key, its capital. */
  predicate SameUpToCase(raw: string, key: string) {
    && |raw| == |key|
    && forall i :: 0 <= i < |raw| ==>
         raw[i] == key[i] || ('a' <= key[i] <= 'z' && raw[i] as int == key[i] as int - 32)
  }

  /** For a key without capitals, lower-casing `raw` gives the key exactly when
      `raw` spells the key up to case. */
  lemma LowerMatchesUpToCase(raw: string, key: string)
    requires forall i :: 0 <= i < |key| ==> !IsUpper(key[i])
    ensures Lower(raw) == key <==> SameUpToCase(raw, key)
  {
    if Lower(raw) == key {
      forall i | 0 <= i < |raw|
        ensures raw[i] == key[i] || ('a' <= key[i] <= 'z' && raw[i] as int == key[i] as int - 32)
      {
        assert key[i] == LowerChar(raw[i]);
      }
    }
    if SameUpToCase(raw, key) {
      forall i | 0 <= i < |raw| ensures Lower(raw)[i] == key[i] {
        if raw[i] != key[i] {
          assert IsUpper(raw[i]);
        }
      }
    }
  }

  /** A string without upper-case ASCII letters is its own lower-case form. */
  lemma LowerOfLowercase(s: string)
    requires forall i :: 0 <= i < |s| ==> !IsUpper(s[i])
    ensures Lower(s) == s
  {
  }

  /** Lower-casing twice is lower-casing once. */
  lemma LowerIdempotent(s: string)
    ensures Lower(Lower(s)) == Lower(s)
  {
    LowerOfLowercase(Lower(s));
  }

  /** The concatenation of a list of lists, first list first. */
  function Flatten<T>(xss: seq<seq<T>>): seq<T>
    decreases |xss|
  {
    if xss == [] then [] else xss[0] + Flatten(xss[1..])
  }

  /** Appending one more list appends its elements at the end. */
  lemma {:induction false} FlattenSnoc<T>(xss: seq<seq<T>>, ys: seq<T>)
    ensures Flatten(xss + [ys]) == Flatten(xss) + ys
    decreases |xss|
  {
    if xss == [] {
      assert [] + [ys] == [ys];
      assert Flatten([ys]) == ys + Flatten([ys][1..]);
    } else {
      assert (xss + [ys])[0] == xss[0];
      assert (xss + [ys])[1..] == xss[1..] + [ys];
      FlattenSnoc(xss[1..], ys);
    }
  }
}

=== FILE: documents.dfy ===
/** The already-parsed object documents the plugin sends, and the parsed
    response bodies it gets back. Only the fields the reconciler reads are
    structured; everything else in a document is carried as opaque content. */
module Documents {
  import opened Common

  /** The `metadata` block of an object: `name` and `namespace` may be missing. */
  datatype Metadata = Metadata(name: Option<string>, namespace: Option<string>)

  /** One object document: its `kind` string (as written, any case), its
      `metadata` block if present, and the rest of the document. */
  datatype Item = Item(kind: Option<string>, metadata: Option<Metadata>, content: string) {

    /** `data.get('metadata', {}).get('name')` */
    function Name(): Option<string> {
      match metadata
      case Some(md) => md.name
      case None => None
    }
  }

  /** What the templating step or the `inline` argument yields: one document
      or a list of them. */
  datatype Document = Single(item: Item) | Many(items: seq<Item>)

  /** A non-list document is wrapped into a one-element list. */
  function Items(d: Document): (xs: seq<Item>)
    ensures d.Single? ==> xs == [d.item]
    ensures d.Many? ==> xs == d.items
  {
    match d
    case Single(x) => [x]
    case Many(xs) => xs
  }

  /** A JSON-decoded response body: empty, an object document, or anything else. */
  datatype Body = Null | Object(item: Item) | Opaque(text: string)
}

=== FILE: http.dfy ===
/** The request helper of the action plugin: method check, bearer-token
    header, and one call of the transport. The transport itself (the HTTP
    library plus JSON decoding of the response text) is a function from a
    request to a response, supplied by the caller. */
module Http {
  import opened Common
  import opened Documents

  /** The five verbs the helper knows. */
  datatype Method = GET | POST | PUT | DELETE | PATCH {

    /** The verb's name as callers spell it. */
    function Name(): string {
      match this
      case GET => "GET"
      case POST => "POST"
      case PUT => "PUT"
      case DELETE => "DELETE"
      case PATCH => "PATCH"
    }

    /** GET and DELETE are issued without a request body. */
    predicate SendsData() {
      this == POST || this == PUT || this == PATCH
    }
  }

  /** Matches a method string against the five known verbs (case-sensitive). */
  function ParseMethod(s: string): (m: Option<Method>)
    ensures m.Some? ==> m.value.Name() == s
  {
    if s == "GET" then Some(GET)
    else if s == "POST" then Some(POST)
    else if s == "PUT" then Some(PUT)
    else if s == "DELETE" then Some(DELETE)
    else if s == "PATCH" then Some(PATCH)
    else None
  }

  /** Exactly the five verb names are accepted, each as itself. */
  lemma ParseMethodInverse(s: string, m: Method)
    ensures ParseMethod(s) == Some(m) <==> s == m.Name()
  {
  }

  type Headers = map<string, string>

  /** HTTP basic-auth credentials, handed to the transport as they are. */
  datatype BasicAuth = BasicAuth(username: string, password: string)

  /** The credentials of a run: the basic-auth pair, if both halves were given,
      and the bearer token. Both may be set at once; the token travels as a
      header and the pair as a transport parameter, so neither overrides the
      other. */
  datatype Credentials = Credentials(auth: Option<BasicAuth>, token: Option<string>)

  /** Everything the helper hands to the transport for one call. */
  datatype Request = Request(verb: Method, url: string, headers: Headers, data: Option<Item>, auth: Option<BasicAuth>)

  /** What the transport returns: the status code and the decoded body. */
  datatype Response = Response(status: int, body: Body)

  type Transport = Request -> Response

  const AuthorizationHeader: string := "Authorization"

  /** A token is used only when it is a non-empty string (Python truthiness). */
  predicate HasToken(token: Option<string>) {
    token.Some? && token.value != ""
  }

  function Bearer(token: string): string {
    "Bearer " + token
  }

  /** The request carries the bearer token, if there is one to carry. */
  predicate Authorized(req: Request, token: Option<string>) {
    HasToken(token) ==>
      AuthorizationHeader in req.headers && req.headers[AuthorizationHeader] == Bearer(token.value)
  }

  /** Every header of `given` other than `Authorization` reaches `sent` unchanged,
      and `sent` adds no other header. */
  predicate KeepsHeaders(sent: Headers, given: Headers) {
    && (forall h :: h in given && h != AuthorizationHeader ==> h in sent && sent[h] == given[h])
    && (forall h :: h in sent && h != AuthorizationHeader ==> h in given)
  }

  /** Attaches `Authorization: Bearer <token>` to the caller's headers. */
  function WithToken(headers: Headers, token: Option<string>): (h: Headers)
    ensures KeepsHeaders(h, headers)
    ensures HasToken(token) ==> AuthorizationHeader in h && h[AuthorizationHeader] == Bearer(token.value)
    ensures !HasToken(token) ==> h == headers
  {
    if HasToken(token) then headers[AuthorizationHeader := Bearer(token.value)] else headers
  }

  /** What the helper records in the run result on its own. */
  datatype HttpError =
    | BadMethod(name: string)            // a verb outside the five
    | NotExecuted(url: string, verb: Method)   // the transport reported status -1

  /** The outcome of one helper call: status and body as the caller sees them,
      the errors the helper recorded, and the requests it sent. */
  datatype Exchange = Exchange(status: int, body: Body, errors: seq<HttpError>, sent: seq<Request>)

  /** One call of the request helper. An unknown verb sends nothing and reports
      status -1 with no body. Otherwise exactly one request goes out, carrying
      the token header, the caller's other headers, the body for verbs that
      take one, and the basic-auth pair; a status of -1 is recorded as an error. */
  function Send(t: Transport, token: Option<string>, url: string, verb: string,
                headers: Headers, data: Option<Item>, auth: Option<BasicAuth>): (x: Exchange)
    ensures ParseMethod(verb).None? ==>
      x.status == -1 && x.body == Null && x.errors == [BadMethod(verb)] && x.sent == []
    ensures ParseMethod(verb).Some? ==>
      && |x.sent| == 1
      && x.sent[0].verb.Name() == verb
      && x.sent[0].url == url
      && x.sent[0].auth == auth
      && x.sent[0].data == (if x.sent[0].verb.SendsData() then data else None)
      && Authorized(x.sent[0], token)
      && KeepsHeaders(x.sent[0].headers, headers)
      && (!HasToken(token) ==> x.sent[0].headers == headers)
      && x.status == t(x.sent[0]).status
      && x.body == t(x.sent[0]).body
      && (x.errors == [] <==> x.status != -1)
      && x.errors == (if x.status == -1 then [NotExecuted(url, x.sent[0].verb)] else [])
  {
    match ParseMethod(verb)
    case None => Exchange(-1, Null, [BadMethod(verb)], [])
    case Some(m) =>
      var req := Request(m, url, WithToken(headers, token), if m.SendsData() then data else None, auth);
      var resp := t(req);
      Exchange(resp.status, resp.body, if resp.status == -1 then [NotExecuted(url, m)] else [], [req])
  }
}

=== FILE: kinds.dfy ===
/** Endpoint resolution: the static kind-to-path table, the `{namespace}`
    substitution, and the choice of URL for one object document. */
module Kinds {
  import opened Common
  import opened Documents

  const Placeholder: string := "{namespace}"
  const DefaultNamespace: string := "default"
  const NamespacedRoot: string := "/api/v1/namespaces/"
  const ClusterRoot: string := "/api/v1/"

  /** The fourteen object kinds of the table, each keyed by its lower-case name. */
  datatype Kind =
    | Binding | Endpoints | LimitRange | Namespace | Node | PersistentVolume
    | PersistentVolumeClaim | Pod | PodTemplate | ReplicationController
    | ResourceQuota | Secret | Service | ServiceAccount
  {
    /** The table key. */
    function Name(): string {
      match this
      case Binding => "binding"
      case Endpoints => "endpoints"
      case LimitRange => "limitrange"
      case Namespace => "namespace"
      case Node => "node"
      case PersistentVolume => "persistentvolume"
      case PersistentVolumeClaim => "persistentvolumeclaim"
      case Pod => "pod"
      case PodTemplate => "podtemplate"
      case ReplicationController => "replicationcontroller"
      case ResourceQuota => "resourcequota"
      case Secret => "secret"
      case Service => "service"
      case ServiceAccount => "serviceaccount"
    }

    /** Cluster-scoped kinds live outside any namespace. */
    predicate Namespaced() {
      !(this == Namespace || this == Node || this == PersistentVolume)
    }

    /** The plural resource name that ends the collection path. */
    function Collection(): string {
      match this
      case Binding => "bindings"
      case Endpoints => "endpoints"
      case LimitRange => "limitranges"
      case Namespace => "namespaces"
      case Node => "nodes"
      case PersistentVolume => "persistentvolumes"
      case PersistentVolumeClaim => "persistentvolumeclaims"
      case Pod => "pods"
      case PodTemplate => "podtemplates"
      case ReplicationController => "replicationcontrollers"
      case ResourceQuota => "resourcequotas"
      case Secret => "secrets"
      case Service => "services"
      case ServiceAccount => "serviceaccounts"
    }
 
    /** The collection path of the table: namespaced kinds carry one
        `{namespace}` placeholder, cluster-scoped kinds none. */
    function UrlTemplate(): string {
      if Namespaced() then NamespacedRoot + Placeholder + "/" + Collection()
      else ClusterRoot + Collection()
    }
  }

  /** The fourteen table entries, character for character. */
  lemma TemplateOfBinding()
    ensures Binding.UrlTemplate() == "/api/v1/namespaces/{namespace}/bindings"
  {
  }

  lemma TemplateOfEndpoints()
    ensures Endpoints.UrlTemplate() == "/api/v1/namespaces/{namespace}/endpoints"
  {
  }

  lemma TemplateOfLimitRange()
    ensures LimitRange.UrlTemplate() == "/api/v1/namespaces/{namespace}/limitranges"
  {
  }

  lemma TemplateOfNamespace()
    ensures Namespace.UrlTemplate() == "/api/v1/namespaces"
  {
  }

  lemma TemplateOfNode()
    ensures Node.UrlTemplate() == "/api/v1/nodes"
  {
  }

  lemma TemplateOfPersistentVolume()
    ensures PersistentVolume.UrlTemplate() == "/api/v1/persistentvolumes"
  {
  }

  lemma TemplateOfPersistentVolumeClaim()
    ensures PersistentVolumeClaim.UrlTemplate() == "/api/v1/namespaces/{namespace}/persistentvolumeclaims"
  {
  }

  lemma TemplateOfPod()
    ensures Pod.UrlTemplate() == "/api/v1/namespaces/{namespace}/pods"
  {
  }

  lemma TemplateOfPodTemplate()
    ensures PodTemplate.UrlTemplate() == "/api/v1/namespaces/{namespace}/podtemplates"
  {
  }

  lemma TemplateOfReplicationController()
    ensures ReplicationController.UrlTemplate() == "/api/v1/namespaces/{namespace}/replicationcontrollers"
  {
  }

  lemma TemplateOfResourceQuota()
    ensures ResourceQuota.UrlTemplate() == "/api/v1/namespaces/{namespace}/resourcequotas"
  {
  }

  lemma TemplateOfSecret()
    ensures Secret.UrlTemplate() == "/api/v1/namespaces/{namespace}/secrets"
  {
  }

  lemma TemplateOfService()
    ensures Service.UrlTemplate() == "/api/v1/namespaces/{namespace}/services"
  {
  }

  lemma TemplateOfServiceAccount()
    ensures ServiceAccount.UrlTemplate() == "/api/v1/namespaces/{namespace}/serviceaccounts"
  {
  }

  /** The assembled templates are exactly the literal paths of the kind table. */
  lemma UrlTemplatesAreTheTable()
    ensures Binding.UrlTemplate() == "/api/v1/namespaces/{namespace}/bindings"
    ensures Endpoints.UrlTemplate() == "/api/v1/namespaces/{namespace}/endpoints"
    ensures LimitRange.UrlTemplate() == "/api/v1/namespaces/{namespace}/limitranges"
    ensures Namespace.UrlTemplate() == "/api/v1/namespaces"
    ensures Node.UrlTemplate() == "/api/v1/nodes"
    ensures PersistentVolume.UrlTemplate() == "/api/v1/persistentvolumes"
    ensures PersistentVolumeClaim.UrlTemplate() == "/api/v1/namespaces/{namespace}/persistentvolumeclaims"
    ensures Pod.UrlTemplate() == "/api/v1/namespaces/{namespace}/pods"
    ensures PodTemplate.UrlTemplate() == "/api/v1/namespaces/{namespace}/podtemplates"
    ensures ReplicationController.UrlTemplate() == "/api/v1/namespaces/{namespace}/replicationcontrollers"
    ensures ResourceQuota.UrlTemplate() == "/api/v1/namespaces/{namespace}/resourcequotas"
    ensures Secret.UrlTemplate() == "/api/v1/namespaces/{namespace}/secrets"
    ensures Service.UrlTemplate() == "/api/v1/namespaces/{namespace}/services"
    ensures ServiceAccount.UrlTemplate() == "/api/v1/namespaces/{namespace}/serviceaccounts"
  {
    TemplateOfBinding();
    TemplateOfEndpoints();
    TemplateOfLimitRange();
    TemplateOfNamespace();
    TemplateOfNode();
    TemplateOfPersistentVolume();
    TemplateOfPersistentVolumeClaim();
    TemplateOfPod();
    TemplateOfPodTemplate();
    TemplateOfReplicationController();
    TemplateOfResourceQuota();
    TemplateOfSecret();
    TemplateOfService();
    TemplateOfServiceAccount();
  }

  /** `Pod`, `pod` and `POD` all name the pod kind. */
  lemma PodSpellings()
    ensures ParseKind("Pod") == Some(Pod) && ParseKind("pod") == Some(Pod) && ParseKind("POD") == Some(Pod)
  {
    ParseKindCaseInsensitive("Pod", Pod);
    ParseKindCaseInsensitive("pod", Pod);
    ParseKindCaseInsensitive("POD", Pod);
  }

  /** Where a kind's collection lives once a namespace is chosen: namespaced
      kinds under `/api/v1/namespaces/<ns>/`, cluster-scoped kinds directly
      under `/api/v1/`. */
  function ExpectedPath(k: Kind, ns: string): string {
    if k.Namespaced() then NamespacedRoot + ns + "/" + k.Collection()
    else ClusterRoot + k.Collection()
  }

  /** The table lookup `KIND_URL[name]`; `None` plays the KeyError. */
  function FromName(name: string): (k: Option<Kind>)
    ensures k.Some? ==> k.value.Name() == name
  {
    if name == "binding" then Some(Binding)
    else if name == "endpoints" then Some(Endpoints)
    else if name == "limitrange" then Some(LimitRange)
    else if name == "namespace" then Some(Namespace)
    else if name == "node" then Some(Node)
    else if name == "persistentvolume" then Some(PersistentVolume)
    else if name == "persistentvolumeclaim" then Some(PersistentVolumeClaim)
    else if name == "pod" then Some(Pod)
    else if name == "podtemplate" then Some(PodTemplate)
    else if name == "replicationcontroller" then Some(ReplicationController)
    else if name == "resourcequota" then Some(ResourceQuota)
    else if name == "secret" then Some(Secret)
    else if name == "service" then Some(Service)
    else if name == "serviceaccount" then Some(ServiceAccount)
    else None
  }

  /** Every kind is found under its own name, so the lookup is exactly the
      inverse of `Name`. */
  lemma FromNameInverse(name: string, k: Kind)
    ensures FromName(name) == Some(k) <==> name == k.Name()
  {
  }

  /** A document's kind is looked up after lower-casing. */
  function ParseKind(raw: string): Option<Kind> {
    FromName(Lower(raw))
  }

  /** The lookup is case-insensitive in exactly the ASCII sense, and it finds
      no kind for any other string; lower-casing the kind beforehand changes
      nothing. */
  lemma ParseKindCaseInsensitive(raw: string, k: Kind)
    ensures ParseKind(raw) == Some(k) <==> Lower(raw) == k.Name()
    ensures ParseKind(raw) == Some(k) <==> SameUpToCase(raw, k.Name())
    ensures ParseKind(Lower(raw)) == ParseKind(raw)
  {
    FromNameInverse(Lower(raw), k);
    NamesAreLower(k);
    LowerMatchesUpToCase(raw, k.Name());
    LowerIdempotent(raw);
  }

  /** Every table key is written without capitals. */
  lemma NamesAreLower(k: Kind)
    ensures forall i :: 0 <= i < |k.Name()| ==> !IsUpper(k.Name()[i])
  {
  }

  /** Python's `str.replace("{namespace}", ns)`: every non-overlapping
      occurrence, scanning from the left, is replaced. */
  function SubstituteNamespace(s: string, ns: string): string
    decreases |s|
  {
    if |s| < |Placeholder| then s
    else if s[..|Placeholder|] == Placeholder then ns + SubstituteNamespace(s[|Placeholder|..], ns)
    else [s[0]] + SubstituteNamespace(s[1..], ns)
  }

  /** A prefix without `{` cannot start or overlap a placeholder, so it passes
      through the substitution untouched. */
  lemma {:induction false} SubstituteSkipsPrefix(a: string, b: string, ns: string)
    requires '{' !in a
    ensures SubstituteNamespace(a + b, ns) == a + SubstituteNamespace(b, ns)
    decreases |a|
  {
    if a == [] {
      assert a + b == b;
    } else {
      var s := a + b;
      if |s| < |Placeholder| {
        assert |b| < |Placeholder|;
      } else {
        assert s[0] == a[0] && s[0] != Placeholder[0];
        assert s[..|Placeholder|] != Placeholder;
        assert s[1..] == a[1..] + b;
        assert '{' !in a[1..] by {
          forall i | 0 <= i < |a[1..]| ensures a[1..][i] != '{' {
            assert a[1..][i] == a[i + 1];
          }
        }
        SubstituteSkipsPrefix(a[1..], b, ns);
      }
    }
  }

  /** A string without `{` is left as it is. */
  lemma SubstituteNothing(s: string, ns: string)
    requires '{' !in s
    ensures SubstituteNamespace(s, ns) == s
  {
    SubstituteSkipsPrefix(s, [], ns);
    assert s + [] == s;
  }

  /** A leading placeholder becomes the namespace. */
  lemma SubstituteLeading(b: string, ns: string)
    ensures SubstituteNamespace(Placeholder + b, ns) == ns + SubstituteNamespace(b, ns)
  {
    var s := Placeholder + b;
    assert s[..|Placeholder|] == Placeholder;
    assert s[|Placeholder|..] == b;
  }

  /** No collection name holds a `{`. */
  lemma CollectionHasNoBrace(k: Kind)
    ensures '{' !in k.Collection()
  {
    match k
    case Binding =>
    case Endpoints =>
    case LimitRange =>
    case Namespace =>
    case Node =>
    case PersistentVolume =>
    case PersistentVolumeClaim =>
    case Pod =>
    case PodTemplate =>
    case ReplicationController =>
    case ResourceQuota =>
    case Secret =>
    case Service =>
    case ServiceAccount =>
  }

  lemma RootsHaveNoBrace()
    ensures '{' !in NamespacedRoot && '{' !in ClusterRoot
  {
  }

  /** A namespaced path takes the namespace in its one placeholder. */
  lemma RenderNamespaced(collection: string, ns: string)
    requires '{' !in collection
    ensures SubstituteNamespace(NamespacedRoot + Placeholder + "/" + collection, ns)
         == NamespacedRoot + ns + "/" + collection
  {
    var head := NamespacedRoot;
    var tail := "/" + collection;
    assert '{' !in tail;
    RootsHaveNoBrace();
    assert head + Placeholder + "/" + collection == head + (Placeholder + tail);
    SubstituteSkipsPrefix(head, Placeholder + tail, ns);
    SubstituteLeading(tail, ns);
    SubstituteNothing(tail, ns);
    assert head + ns + "/" + collection == head + (ns + tail);
  }

  /** A cluster-scoped path has no placeholder and is left as it is. */
  lemma RenderClusterScoped(collection: string, ns: string)
    requires '{' !in collection
    ensures SubstituteNamespace(ClusterRoot + collection, ns) == ClusterRoot + collection
  {
    RootsHaveNoBrace();
    assert '{' !in ClusterRoot + collection;
    SubstituteNothing(ClusterRoot + collection, ns);
  }

  /** The table agrees with the expected location for every kind and every
      namespace: namespaced paths take the namespace in their one placeholder,
      cluster-scoped paths have none. */
  lemma TemplateRendersExpectedPath(k: Kind, ns: string)
    ensures SubstituteNamespace(k.UrlTemplate(), ns) == ExpectedPath(k, ns)
  {
    CollectionHasNoBrace(k);
    if k.Namespaced() {
      RenderNamespaced(k.Collection(), ns);
    } else {
      RenderClusterScoped(k.Collection(), ns);
    }
  }

  /** Where one document is sent, or the kind that could not be found. */
  datatype Resolution = Endpoint(url: string) | NoSuchKind(kind: string)

  /** The per-item URL choice of the batch loop. A document with a `metadata`
      block has its lower-cased kind looked up and the table path appended to
      the target endpoint, with `{namespace}` replaced by the document's
      namespace or `"default"`; a document without one goes to the bare target
      endpoint. */
  function Resolve(target: string, item: Item): (r: Resolution)
    ensures item.metadata.None? ==> r == Endpoint(target)
    ensures r.NoSuchKind? <==> item.metadata.Some? && ParseKind(item.kind.GetOr("")).None?
    ensures r.NoSuchKind? ==> r.kind == Lower(item.kind.GetOr(""))
  {
    match item.metadata
    case None => Endpoint(target)
    case Some(md) =>
      var kind := Lower(item.kind.GetOr(""));
      match FromName(kind)
      case None => NoSuchKind(kind)
      case Some(k) =>
        Endpoint(SubstituteNamespace(target + k.UrlTemplate(), md.namespace.GetOr(DefaultNamespace)))
  }

  /** For a known kind the URL is the target endpoint followed by the kind's
      expected path in the document's namespace (or `"default"`), provided the
      endpoint itself holds no `{`. */
  lemma ResolveKnownKind(target: string, item: Item, k: Kind)
    requires '{' !in target
    requires item.metadata.Some?
    requires ParseKind(item.kind.GetOr("")) == Some(k)
    ensures Resolve(target, item)
         == Endpoint(target + ExpectedPath(k, item.metadata.value.namespace.GetOr(DefaultNamespace)))
  {
    var ns := item.metadata.value.namespace.GetOr(DefaultNamespace);
    SubstituteSkipsPrefix(target, k.UrlTemplate(), ns);
    TemplateRendersExpectedPath(k, ns);
  }

  /** Cluster-scoped kinds resolve to the same URL whatever namespace the
      document names. */
  lemma ClusterScopedIgnoresNamespace(target: string, item: Item, k: Kind, other: Option<string>)
    requires '{' !in target
    requires item.metadata.Some?
    requires ParseKind(item.kind.GetOr("")) == Some(k)
    requires !k.Namespaced()
    ensures Resolve(target, item)
         == Resolve(target, item.(metadata := Some(item.metadata.value.(namespace := other))))
  {
    var item' := item.(metadata := Some(item.metadata.value.(namespace := other)));
    ResolveKnownKind(target, item, k);
    ResolveKnownKind(target, item', k);
  }
}

=== FILE: mock_api.dfy ===
/** An in-memory API server used as the transport, to state the behaviour the
    reconcilers promise across calls: a second `present` or `absent` reports
    no change, and the end-to-end scenarios of the module's documentation. The
    store maps object URLs to stored documents. */
module MockApi {
  import opened Common
  import opened Documents
  import opened Http
  import opened Outcomes
  import opened Reconcilers
  import Kinds
  import opened Action

  type Store = map<string, Item>

  /** The object URL a POST would create: the collection URL and the name. */
  function PostKey(req: Request): Option<string> {
    if req.data.Some? && req.data.value.Name().Some? then Some(ObjectUrl(req.url, req.data.value.Name().value))
    else None
  }

  /** How the server answers one request against a store. */
  function Respond(s: Store, req: Request): Response {
    match req.verb
    case POST =>
      (match PostKey(req)
       case None => Response(422, Null)
       case Some(key) => if key in s then Response(409, Null) else Response(201, Object(req.data.value)))
    case GET => if req.url in s then Response(200, Object(s[req.url])) else Response(404, Null)
    case DELETE => if req.url in s then Response(200, Null) else Response(404, Null)
    case PUT => if req.url in s && req.data.Some? then Response(200, Object(req.data.value)) else Response(404, Null)
    case PATCH => if req.url in s && req.data.Some? then Response(200, Object(req.data.value)) else Response(404, Null)
  }

  /** The server as a transport over a fixed store. */
  function Serve(s: Store): Transport {
    (req: Request) => Respond(s, req)
  }

  /** How one request changes the store; it agrees with `Respond` on success. */
  function Effect(s: Store, req: Request): Store {
    match req.verb
    case POST =>
      (match PostKey(req)
       case None => s
       case Some(key) => if key in s then s else s[key := req.data.value])
    case GET => s
    case DELETE => s - {req.url}
    case PUT => if req.url in s && req.data.Some? then s[req.url := req.data.value] else s
    case PATCH => if req.url in s && req.data.Some? then s[req.url := req.data.value] else s
  }

  /** The store after a sequence of requests, applied in order. */
  function EffectAll(s: Store, reqs: seq<Request>): Store
    decreases |reqs|
  {
    if reqs == [] then s else EffectAll(Effect(s, reqs[0]), reqs[1..])
  }

  lemma EffectAllOne(s: Store, a: Request)
    ensures EffectAll(s, [a]) == Effect(s, a)
  {
    assert EffectAll(Effect(s, a), []) == Effect(s, a);
  }

  lemma EffectAllTwo(s: Store, a: Request, b: Request)
    ensures EffectAll(s, [a, b]) == Effect(Effect(s, a), b)
  {
    assert [a, b][1..] == [b];
    EffectAllOne(Effect(s, a), b);
  }

  /** `present` twice: the first call creates the object exactly when it was
      missing, the object exists afterwards, and the second call is a soft
      no-op that returns the stored object. */
  lemma PresentIsIdempotent(s: Store, c: Credentials, url: string, item: Item)
    requires item.Name().Some?
    ensures var key := ObjectUrl(url, item.Name().value);
      var first := Create(Serve(s), c, url, item);
      var s1 := EffectAll(s, first.sent);
      var second := Create(Serve(s1), c, url, item);
      && first.changed == (key !in s) && first.failures == []
      && key in s1
      && !second.changed && second.failures == [] && second.body == Api(Object(s1[key]))
      && EffectAll(s1, second.sent) == s1
  {
    var key := ObjectUrl(url, item.Name().value);
    var first := Create(Serve(s), c, url, item);
    assert PostKey(first.sent[0]) == Some(key);
    var s1 := EffectAll(s, first.sent);
    if key in s {
      assert first.sent == [first.sent[0], first.sent[1]];
      EffectAllTwo(s, first.sent[0], first.sent[1]);
      assert s1 == s;
    } else {
      assert first.sent == [first.sent[0]];
      EffectAllOne(s, first.sent[0]);
      assert s1 == s[key := item];
    }
    var second := Create(Serve(s1), c, url, item);
    assert PostKey(second.sent[0]) == Some(key);
    assert second.sent == [second.sent[0], second.sent[1]];
    EffectAllTwo(s1, second.sent[0], second.sent[1]);
  }

  /** `absent` twice: the first call deletes the object exactly when it was
      there, the object is gone afterwards, and the second call is a soft no-op
      reporting the object already absent. */
  lemma AbsentIsIdempotent(s: Store, c: Credentials, url: string, item: Item)
    requires item.Name().Some?
    ensures var name := item.Name().value;
      var key := ObjectUrl(url, name);
      var first := Delete(Serve(s), c, url, item);
      var s1 := EffectAll(s, first.sent);
      var second := Delete(Serve(s1), c, url, item);
      && first.changed == (key in s) && first.failures == []
      && key !in s1
      && !second.changed && second.failures == [] && second.body == Note(AlreadyAbsent(name))
      && EffectAll(s1, second.sent) == s1
  {
    var first := Delete(Serve(s), c, url, item);
    assert first.sent == [first.sent[0]];
    EffectAllOne(s, first.sent[0]);
    var s1 := EffectAll(s, first.sent);
    var second := Delete(Serve(s1), c, url, item);
    assert second.sent == [second.sent[0]];
    EffectAllOne(s1, second.sent[0]);
  }

  /** A transport whose writes always conflict and whose reads are served from
      the store. */
  function Conflicting(s: Store): Transport {
    (req: Request) => if req.verb == GET then Respond(s, req) else Response(409, Null)
  }

  /** After a conflicting `replace` or `update` of a stored object, the
      plugin's refetch of the doubled-name URL misses the object (the server
      answers 404 and the body is empty), while refetching the object URL
      returns the stored object. */
  lemma AsWrittenRefetchMissesStoredObject(state: State, s: Store, c: Credentials, url: string, item: Item)
    requires state == Replace || state == Update
    requires item.Name().Some?
    requires ObjectUrl(url, item.Name().value) in s
    requires AsWrittenRefetchUrl(ObjectUrl(url, item.Name().value), item.Name().value) !in s
    ensures RewriteAsWritten(state, Conflicting(s), c, url, item).body == Api(Null)
    ensures Rewrite(state, Conflicting(s), c, url, item).body == Api(Object(s[ObjectUrl(url, item.Name().value)]))
  {
  }

  /** A namespace document, as in the module's examples. */
  function NamespaceItem(name: string): Item {
    Item(Some("Namespace"), Some(Metadata(Some(name), None)), "")
  }

  /** A single-document run over https with a bearer token. */
  function ScenarioArgs(endpoint: string, item: Item, state: State): Args {
    Args(Some(endpoint), None, None, Some("redacted"), Flag(false), None, Some(Single(item)), Some(state))
  }

  const Token: Credentials := Credentials(None, Some("redacted"))

  lemma NamespaceKindResolves()
    ensures Kinds.ParseKind("Namespace") == Some(Kinds.Namespace)
  {
    assert Lower("Namespace") == "namespace";
  }

  /** A single-document run is the outcome of that one document against the
      https target endpoint, with the bearer token and no basic-auth pair. */
  lemma ScenarioRun(endpoint: string, item: Item, state: State, render: string -> Document, t: Transport)
    ensures var o := ProcessItem(state, "https://" + endpoint, Token, t, item);
      Run(ScenarioArgs(endpoint, item, state), render, t) == RunResult(o.changed, o.failures, [o.body], o.sent)
  {
    var a := ScenarioArgs(endpoint, item, state);
    assert WellFormed(a);
    assert "https" + "://" == "https://";
    assert TargetEndpoint(false, endpoint) == "https://" + endpoint;
    RunFoldsDocuments(a, render, t);
    assert Items(DocumentOf(a, render)) == [item];
    BatchOfOne(item, state, "https://" + endpoint, Token, t);
  }

  /** The namespace document resolves to the cluster-scoped namespaces
      collection under the https endpoint. */
  lemma NamespaceUrl(endpoint: string, name: string)
    requires '{' !in endpoint
    ensures Kinds.Resolve("https://" + endpoint, NamespaceItem(name))
         == Kinds.Endpoint("https://" + endpoint + Kinds.ExpectedPath(Kinds.Namespace, Kinds.DefaultNamespace))
  {
    NamespaceKindResolves();
    assert '{' !in "https://" + endpoint;
    Kinds.ResolveKnownKind("https://" + endpoint, NamespaceItem(name), Kinds.Namespace);
  }

  /** Creating a namespace against an empty store POSTs once to the namespaces
      collection and reports a change, with the created object as the body. */
  lemma CreateNamespaceOnEmptyStore(endpoint: string, name: string, render: string -> Document)
    requires '{' !in endpoint
    ensures var r := Run(ScenarioArgs(endpoint, NamespaceItem(name), Present), render, Serve(map[]));
      && r.changed && !r.Failed() && r.bodies == [Api(Object(NamespaceItem(name)))]
      && |r.sent| == 1 && r.sent[0].url == "https://" + endpoint + Kinds.ExpectedPath(Kinds.Namespace, Kinds.DefaultNamespace)
  {
    var item := NamespaceItem(name);
    var t := Serve(map[]);
    var url := "https://" + endpoint + Kinds.ExpectedPath(Kinds.Namespace, Kinds.DefaultNamespace);
    NamespaceUrl(endpoint, name);
    var o := ProcessItem(Present, "https://" + endpoint, Token, t, item);
    assert o == Create(t, Token, url, item);
    assert PostKey(o.sent[0]) == Some(ObjectUrl(url, name));
    assert t(o.sent[0]) == Response(201, Object(item));
    ScenarioRun(endpoint, item, Present, render, t);
  }

  /** Creating it again, once the store holds it, reports no change and
      returns the stored object. */
  lemma CreateNamespaceAgain(endpoint: string, name: string, s: Store, render: string -> Document)
    requires '{' !in endpoint
    requires ObjectUrl("https://" + endpoint + Kinds.ExpectedPath(Kinds.Namespace, Kinds.DefaultNamespace), name) in s
    ensures var r := Run(ScenarioArgs(endpoint, NamespaceItem(name), Present), render, Serve(s));
      var key := ObjectUrl("https://" + endpoint + Kinds.ExpectedPath(Kinds.Namespace, Kinds.DefaultNamespace), name);
      !r.changed && !r.Failed() && r.bodies == [Api(Object(s[key]))]
  {
    var item := NamespaceItem(name);
    var t := Serve(s);
    var url := "https://" + endpoint + Kinds.ExpectedPath(Kinds.Namespace, Kinds.DefaultNamespace);
    NamespaceUrl(endpoint, name);
    var o := ProcessItem(Present, "https://" + endpoint, Token, t, item);
    assert o == Create(t, Token, url, item);
    assert PostKey(o.sent[0]) == Some(ObjectUrl(url, name));
    assert t(o.sent[0]).status == 409;
    ScenarioRun(endpoint, item, Present, render, t);
  }

  /** Removing a namespace the store does not hold reports no change and the
      "already absent" message. */
  lemma RemoveMissingNamespace(endpoint: string, name: string, render: string -> Document)
    requires '{' !in endpoint
    ensures var r := Run(ScenarioArgs(endpoint, NamespaceItem(name), Absent), render, Serve(map[]));
      !r.changed && !r.Failed() && r.bodies == [Note("Resource name '" + name + "' already absent")]
  {
    var item := NamespaceItem(name);
    var t := Serve(map[]);
    var url := "https://" + endpoint + Kinds.ExpectedPath(Kinds.Namespace, Kinds.DefaultNamespace);
    NamespaceUrl(endpoint, name);
    var o := ProcessItem(Absent, "https://" + endpoint, Token, t, item);
    assert o == Delete(t, Token, url, item);
    assert o.sent[0].url == ObjectUrl(url, name);
    assert t(o.sent[0]) == Response(404, Null);
    ScenarioRun(endpoint, item, Absent, render, t);
  }

  /** `Bogus` lower-cases to a key the table does not have. */
  lemma BogusIsNoKind(target: string)
    ensures Kinds.ParseKind("Bogus") == None
    ensures Kinds.Resolve(target, Item(Some("Bogus"), Some(Metadata(None, None)), "")) == Kinds.NoSuchKind("bogus")
  {
    assert Lower("Bogus") == "bogus";
  }

  /** The invalid-kind message for `bogus`, spelled out. */
  lemma BogusMessage()
    ensures UnknownKind("bogus").Text() == "invalid resource kind specified in the data: '" + "bogus" + "'"
  {
  }

  /** A document of kind `Bogus` fails the run with the invalid-kind message
      and sends nothing. */
  lemma BogusKindFails(endpoint: string, state: State, render: string -> Document, t: Transport)
    ensures var r := Run(ScenarioArgs(endpoint, Item(Some("Bogus"), Some(Metadata(None, None)), ""), state), render, t);
      r.Failed() && r.sent == [] && r.Msg() == Some("invalid resource kind specified in the data: '" + "bogus" + "'")
  {
    var item := Item(Some("Bogus"), Some(Metadata(None, None)), "");
    BogusIsNoKind("https://" + endpoint);
    var o := ProcessItem(state, "https://" + endpoint, Token, t, item);
    assert o == ItemOutcome(false, Skipped, [UnknownKind("bogus")], []);
    ScenarioRun(endpoint, item, state, render, t);
    var r := Run(ScenarioArgs(endpoint, item, state), render, t);
    assert r == RunResult(false, [UnknownKind("bogus")], [Skipped], []);
    assert r.Msg() == Some(UnknownKind("bogus").Text());
    BogusMessage();
  }
}

=== FILE: outcomes.dfy ===
/** The vocabulary shared by the reconcilers and the batch loop: the closed set
    of desired states, every failure the run can record, and the outcome of
    reconciling one document. */
module Outcomes {
  import opened Common
  import opened Documents
  import opened Http

  /** The four documented choices of the `state` argument. */
  datatype State = Present | Absent | Replace | Update

  /** The `{"msg": ...}` wrapper the plugin JSON-encodes some messages in. */
  function JsonMsg(text: string): string {
    "{\"msg\": \"" + text + "\"}"
  }

  /** Everything that sets `failed` in the run result. */
  datatype Failure =
    | MissingEndpoint
    | HalfCredentials
    | InsecureNotBool
    | MissingState
    | MissingDocument
    | UnknownKind(kind: string)
    | MissingName(state: State)
    | Transport(error: HttpError)
    | Rejected(state: State, url: string, body: Body)
  {
    /** One of the five argument checks that run before any request. */
    predicate Validation() {
      MissingEndpoint? || HalfCredentials? || InsecureNotBool? || MissingState? || MissingDocument?
    }

    /** The `msg` the run result carries for this failure. Messages the plugin
        builds from a decoded response body or a header map are given by their
        fixed text only. */
    function Text(): string {
      match this
      case MissingEndpoint => "api_endpoint is required"
      case HalfCredentials => "username and password must both be provided if either is provided"
      case InsecureNotBool => "insecure must be a valid boolean"
      case MissingState => "state is required"
      case MissingDocument => "either template or inline is required"
      case UnknownKind(kind) => "invalid resource kind specified in the data: '" + kind + "'"
      case MissingName(state) =>
        (match state
         case Present => "Missing a named resource in object metadata when trying to fetch an existing resource"
         case Absent => "Missing a named resource in object metadata when trying to remove a resource"
         case Replace => JsonMsg("Missing a named resource in object metadata when trying to replace a resource")
         case Update => JsonMsg("Missing a named resource in object metadata when trying to update a resource"))
      case Transport(BadMethod(name)) => JsonMsg(name + " is not an proper http method")
      case Transport(NotExecuted(_, _)) => "Failed to execute the API request: None"
      case Rejected(state, _, _) =>
        (match state
         case Present => "failed to create the resource"
         case Absent => "failed to delete the resource"
         case Replace => "failed to replace the resource"
         case Update => "failed to update the resource")
    }
  }

  /** Each argument check has a message of its own, so the message says which
      check failed. */
  lemma ValidationMessagesDiffer(f: Failure, g: Failure)
    requires f.Validation() && g.Validation()
    ensures f.Text() == g.Text() ==> f == g
  {
    if f.Text() == g.Text() {
      assert |f.Text()| == |g.Text()|;
    }
  }

  /** The invalid-kind message names the kind it was given. */
  lemma UnknownKindMessageNamesKind(k1: string, k2: string)
    ensures UnknownKind(k1).Text() == UnknownKind(k2).Text() ==> k1 == k2
  {
    var prefix := "invalid resource kind specified in the data: '";
    var t1, t2 := UnknownKind(k1).Text(), UnknownKind(k2).Text();
    assert t1 == prefix + k1 + "'";
    assert t2 == prefix + k2 + "'";
    if t1 == t2 {
      assert |k1| == |k2|;
      assert k1 == t1[|prefix|..|prefix| + |k1|];
      assert k2 == t2[|prefix|..|prefix| + |k2|];
    }
  }

  /** The missing-name message names the state the document was meant for. */
  lemma MissingNameMessageNamesState(a: State, b: State)
    ensures MissingName(a).Text() == MissingName(b).Text() ==> a == b
  {
    if MissingName(a).Text() == MissingName(b).Text() {
      assert |MissingName(a).Text()| == |MissingName(b).Text()|;
    }
  }

  /** The helper's own errors, as run failures, in order. */
  function TransportFailures(errors: seq<HttpError>): (fs: seq<Failure>)
    ensures |fs| == |errors|
    ensures forall i :: 0 <= i < |errors| ==> fs[i] == Transport(errors[i])
  {
    seq(|errors|, i requires 0 <= i < |errors| => Transport(errors[i]))
  }

  /** What one document contributes to the collected bodies: a decoded response,
      a message, or nothing when no request could be made. */
  datatype Payload = Api(body: Body) | Note(text: string) | Skipped

  /** The result of reconciling one document: the `changed` flag, the body,
      the failures recorded along the way, and the requests sent, in order. */
  datatype ItemOutcome = ItemOutcome(changed: bool, body: Payload, failures: seq<Failure>, sent: seq<Request>) {

    /** The API refused the primary request with a status that is not the
        state's soft no-op. */
    predicate Rejection() {
      exists f :: f in failures && f.Rejected?
    }
  }

  /** Every request in `reqs` carries the bearer token, if there is one. */
  predicate AllAuthorized(reqs: seq<Request>, token: Option<string>) {
    forall i :: 0 <= i < |reqs| ==> Authorized(reqs[i], token)
  }
}

=== FILE: reconcile.dfy ===
/** The per-state reconcilers: which request each desired state issues, and
    how the status of that request is sorted into a change, a soft no-op or a
    rejection. */
module Reconcilers {
  import opened Common
  import opened Documents
  import opened Http
  import opened Outcomes

  const ContentTypeHeader: string := "Content-Type"
  const JsonContent: string := "application/json"
  const MergePatchContent: string := "application/strategic-merge-patch+json"

  /** The URL of one named object inside a collection. */
  function ObjectUrl(collection: string, name: string): string {
    collection + "/" + name
  }

  /** Reference table: the verb each state issues first. */
  function Verb(state: State): Method {
    match state
    case Present => POST
    case Absent => DELETE
    case Replace => PUT
    case Update => PATCH
  }

  /** Reference table: the status each state treats as "already in the desired
      state" (409 Conflict when writing, 404 Not Found when deleting). */
  function SoftStatus(state: State): int {
    if state == Absent then 404 else 409
  }

  datatype Verdict = Applied | AlreadyInState | Refused

  /** Reference classification of the primary response status. */
  function Classify(state: State, status: int): Verdict {
    if status == SoftStatus(state) then AlreadyInState
    else if status >= 400 then Refused
    else Applied
  }

  /** `present`: POST the document to the collection. On 409 the existing object
      is fetched by name (without the basic-auth pair, as the plugin does) and
      no change is reported; a document without a name cannot be fetched and is
      recorded as a failure. Any other status of 400 or more records a
      rejection, and `changed` is still reported true. */
  function Create(t: Transport, c: Credentials, url: string, item: Item): (o: ItemOutcome)
    ensures |o.sent| >= 1
    ensures o.sent[0].verb == POST && o.sent[0].url == url && o.sent[0].data == Some(item)
    ensures o.sent[0].auth == c.auth
    ensures ContentTypeHeader in o.sent[0].headers && o.sent[0].headers[ContentTypeHeader] == JsonContent
    ensures AllAuthorized(o.sent, c.token)
    ensures t(o.sent[0]).status == 409 && item.Name().Some? ==>
      && |o.sent| == 2
      && o.sent[1].verb == GET && o.sent[1].url == ObjectUrl(url, item.Name().value) && o.sent[1].auth == None
      && o.sent[1].data == None && KeepsHeaders(o.sent[1].headers, map[])
      && !o.changed && !o.Rejection()
      && o.body == Api(t(o.sent[1]).body)
      && (o.failures == [] <==> t(o.sent[1]).status != -1)
      && o.failures == (if t(o.sent[1]).status == -1 then [Transport(NotExecuted(o.sent[1].url, GET))] else [])
    ensures t(o.sent[0]).status == 409 && item.Name().None? ==>
      |o.sent| == 1 && !o.changed && !o.Rejection() && o.body == Skipped && MissingName(Present) in o.failures
      && o.failures == [MissingName(Present)]
    ensures t(o.sent[0]).status != 409 ==>
      && |o.sent| == 1 && o.changed && o.body == Api(t(o.sent[0]).body)
      && (t(o.sent[0]).status >= 400 ==> Rejected(Present, url, t(o.sent[0]).body) in o.failures)
      && (o.Rejection() <==> t(o.sent[0]).status >= 400)
      && (o.failures == [] <==> t(o.sent[0]).status < 400 && t(o.sent[0]).status != -1)
      && o.failures == (if t(o.sent[0]).status == -1 then [Transport(NotExecuted(url, POST))]
                        else if t(o.sent[0]).status >= 400 then [Rejected(Present, url, t(o.sent[0]).body)]
                        else [])
  {
    var post := Send(t, c.token, url, "POST", map[ContentTypeHeader := JsonContent], Some(item), c.auth);
    var errors := TransportFailures(post.errors);
    if post.status == 409 then
      match item.Name()
      case None => ItemOutcome(false, Skipped, errors + [MissingName(Present)], post.sent)
      case Some(name) =>
        var get := Send(t, c.token, ObjectUrl(url, name), "GET", map[], None, None);
        ItemOutcome(false, Api(get.body), errors + TransportFailures(get.errors), post.sent + get.sent)
    else if post.status >= 400 then
      ItemOutcome(true, Api(post.body), errors + [Rejected(Present, url, post.body)], post.sent)
    else
      ItemOutcome(true, Api(post.body), errors, post.sent)
  }

  function AlreadyAbsent(name: string): string {
    "Resource name '" + name + "' already absent"
  }

  function Deleted(name: string): string {
    "Successfully deleted resource name '" + name + "'"
  }

  /** `absent`: DELETE the named object. A document without a name records a
      failure and sends nothing. On 404 no change is reported; any other
      status of 400 or more records a rejection, and `changed` is still
      reported true with the success message. */
  function Delete(t: Transport, c: Credentials, url: string, item: Item): (o: ItemOutcome)
    ensures AllAuthorized(o.sent, c.token)
    ensures item.Name().None? ==> o == ItemOutcome(false, Skipped, [MissingName(Absent)], [])
    ensures item.Name().Some? ==>
      var name := item.Name().value;
      && |o.sent| == 1
      && o.sent[0].verb == DELETE && o.sent[0].url == ObjectUrl(url, name)
      && o.sent[0].auth == c.auth && o.sent[0].data == None
      && (t(o.sent[0]).status == 404 ==>
            !o.changed && o.failures == [] && o.body == Note(AlreadyAbsent(name)))
      && (t(o.sent[0]).status != 404 ==>
            && o.changed && o.body == Note(Deleted(name))
            && (t(o.sent[0]).status >= 400 ==>
                  Rejected(Absent, ObjectUrl(url, name), t(o.sent[0]).body) in o.failures)
            && (o.Rejection() <==> t(o.sent[0]).status >= 400)
            && (o.failures == [] <==> t(o.sent[0]).status < 400 && t(o.sent[0]).status != -1)
            && o.failures == (if t(o.sent[0]).status == -1 then [Transport(NotExecuted(ObjectUrl(url, name), DELETE))]
                              else if t(o.sent[0]).status >= 400 then [Rejected(Absent, ObjectUrl(url, name), t(o.sent[0]).body)]
                              else []))
  {
    match item.Name()
    case None => ItemOutcome(false, Skipped, [MissingName(Absent)], [])
    case Some(name) =>
      var target := ObjectUrl(url, name);
      var del := Send(t, c.token, target, "DELETE", map[], None, c.auth);
      var errors := TransportFailures(del.errors);
      if del.status == 404 then
        ItemOutcome(false, Note(AlreadyAbsent(name)), errors, del.sent)
      else if del.status >= 400 then
        ItemOutcome(true, Note(Deleted(name)), errors + [Rejected(Absent, target, del.body)], del.sent)
      else
        ItemOutcome(true, Note(Deleted(name)), errors, del.sent)
  }

  /** The URL the plugin refetches after a 409 on `replace` or `update`: the
      object URL with the name appended a second time. */
  function AsWrittenRefetchUrl(objectUrl: string, name: string): (u: string)
    ensures |u| == |objectUrl| + 1 + |name|
  {
    objectUrl + "/" + name
  }

  /** The shared body of `replace` (PUT, JSON) and `update` (PATCH,
      strategic-merge JSON), with the 409 refetch going to the object URL, or,
      when `asWritten` holds, to the doubled-name URL the plugin builds. */
  function RewriteVia(state: State, t: Transport, c: Credentials, url: string, item: Item, asWritten: bool): (o: ItemOutcome)
    requires state == Replace || state == Update
    ensures AllAuthorized(o.sent, c.token)
    ensures item.Name().None? ==> o == ItemOutcome(false, Skipped, [MissingName(state)], [])
    ensures item.Name().Some? ==>
      var target := ObjectUrl(url, item.Name().value);
      && |o.sent| >= 1
      && o.sent[0].verb == (if state == Replace then PUT else PATCH)
      && o.sent[0].url == target && o.sent[0].data == Some(item) && o.sent[0].auth == c.auth
      && ContentTypeHeader in o.sent[0].headers
      && o.sent[0].headers[ContentTypeHeader] == (if state == Replace then JsonContent else MergePatchContent)
      && (t(o.sent[0]).status == 409 ==>
            && |o.sent| == 2
            && o.sent[1].verb == GET
            && o.sent[1].url == (if asWritten then AsWrittenRefetchUrl(target, item.Name().value) else target)
            && o.sent[1].auth == c.auth
            && o.sent[1].data == None && KeepsHeaders(o.sent[1].headers, map[])
            && !o.changed && !o.Rejection() && o.body == Api(t(o.sent[1]).body)
            && o.failures == (if t(o.sent[1]).status == -1 then [Transport(NotExecuted(o.sent[1].url, GET))] else []))
      && (t(o.sent[0]).status != 409 ==>
            && |o.sent| == 1 && o.changed && o.body == Api(t(o.sent[0]).body)
            && o.failures == (if t(o.sent[0]).status == -1 then [Transport(NotExecuted(target, o.sent[0].verb))]
                              else if t(o.sent[0]).status >= 400 then [Rejected(state, target, t(o.sent[0]).body)]
                              else []))
  {
    match item.Name()
    case None => ItemOutcome(false, Skipped, [MissingName(state)], [])
    case Some(name) =>
      var target := ObjectUrl(url, name);
      var verb := if state == Replace then "PUT" else "PATCH";
      var content := if state == Replace then JsonContent else MergePatchContent;
      var write := Send(t, c.token, target, verb, map[ContentTypeHeader := content], Some(item), c.auth);
      var errors := TransportFailures(write.errors);
      if write.status == 409 then
        var refetch := if asWritten then AsWrittenRefetchUrl(target, name) else target;
        var get := Send(t, c.token, refetch, "GET", map[], None, c.auth);
        ItemOutcome(false, Api(get.body), errors + TransportFailures(get.errors), write.sent + get.sent)
      else if write.status >= 400 then
        ItemOutcome(true, Api(write.body), errors + [Rejected(state, target, write.body)], write.sent)
      else
        ItemOutcome(true, Api(write.body), errors, write.sent)
  }

  /** `replace` and `update`: write the whole document to the named object. A
      document without a name records a failure and sends nothing. On 409 the
      object is fetched again by name and no change is reported; any other
      status of 400 or more records a rejection, and `changed` is still
      reported true. */
  function Rewrite(state: State, t: Transport, c: Credentials, url: string, item: Item): (o: ItemOutcome)
    requires state == Replace || state == Update
    ensures AllAuthorized(o.sent, c.token)
    ensures item.Name().None? ==> o == ItemOutcome(false, Skipped, [MissingName(state)], [])
    ensures item.Name().Some? ==>
      var target := ObjectUrl(url, item.Name().value);
      && |o.sent| >= 1
      && o.sent[0].verb == (if state == Replace then PUT else PATCH)
      && o.sent[0].url == target && o.sent[0].data == Some(item) && o.sent[0].auth == c.auth
      && ContentTypeHeader in o.sent[0].headers
      && o.sent[0].headers[ContentTypeHeader] == (if state == Replace then JsonContent else MergePatchContent)
      && (t(o.sent[0]).status == 409 ==>
            && |o.sent| == 2
            && o.sent[1].verb == GET && o.sent[1].url == target && o.sent[1].auth == c.auth
            && o.sent[1].data == None && KeepsHeaders(o.sent[1].headers, map[])
            && !o.changed && !o.Rejection() && o.body == Api(t(o.sent[1]).body)
            && (o.failures == [] <==> t(o.sent[1]).status != -1)
            && o.failures == (if t(o.sent[1]).status == -1 then [Transport(NotExecuted(target, GET))] else []))
      && (t(o.sent[0]).status != 409 ==>
            && |o.sent| == 1 && o.changed && o.body == Api(t(o.sent[0]).body)
            && (t(o.sent[0]).status >= 400 ==> Rejected(state, target, t(o.sent[0]).body) in o.failures)
            && (o.Rejection() <==> t(o.sent[0]).status >= 400)
            && (o.failures == [] <==> t(o.sent[0]).status < 400 && t(o.sent[0]).status != -1)
            && o.failures == (if t(o.sent[0]).status == -1 then [Transport(NotExecuted(target, o.sent[0].verb))]
                              else if t(o.sent[0]).status >= 400 then [Rejected(state, target, t(o.sent[0]).body)]
                              else []))
  {
    RewriteVia(state, t, c, url, item, false)
  }

  /** `replace` and `update` exactly as the plugin writes them: after a 409 the
      refetch goes to the object URL with the name appended once more. */
  function RewriteAsWritten(state: State, t: Transport, c: Credentials, url: string, item: Item): (o: ItemOutcome)
    requires state == Replace || state == Update
    ensures item.Name().Some? ==>
      var target := ObjectUrl(url, item.Name().value);
      && |o.sent| >= 1 && o.sent[0].url == target
      && (t(o.sent[0]).status == 409 ==>
            |o.sent| == 2 && o.sent[1].verb == GET
            && o.sent[1].url == AsWrittenRefetchUrl(target, item.Name().value)
            && o.sent[1].url != target
            && o.body == Api(t(o.sent[1]).body))
  {
    RewriteVia(state, t, c, url, item, true)
  }

  /** Dispatch on the desired state. */
  function Reconcile(state: State, t: Transport, c: Credentials, url: string, item: Item): (o: ItemOutcome)
    ensures AllAuthorized(o.sent, c.token)
    ensures state != Present && item.Name().None? ==>
      o == ItemOutcome(false, Skipped, [MissingName(state)], [])
  {
    match state
    case Present => Create(t, c, url, item)
    case Absent => Delete(t, c, url, item)
    case Replace => Rewrite(Replace, t, c, url, item)
    case Update => Rewrite(Update, t, c, url, item)
  }

  /** The URL of the first request a state issues: the collection for `present`,
      the named object otherwise. */
  function PrimaryUrl(state: State, url: string, item: Item): string
    requires state == Present || item.Name().Some?
  {
    if state == Present then url else ObjectUrl(url, item.Name().value)
  }

  /** Every reconciler follows the reference tables: its first request uses the
      state's verb on the state's URL, and the status of that request decides
      the outcome. A soft no-op reports no change and no rejection; a success
      reports a change; any other status of 400 or more is a rejection naming
      the URL and the response body, reported with `changed` true as the
      plugin does. */
  lemma ReconcileFollowsVerdict(state: State, t: Transport, c: Credentials, url: string, item: Item)
    requires state == Present || item.Name().Some?
    ensures var o := Reconcile(state, t, c, url, item);
      && |o.sent| >= 1
      && o.sent[0].verb == Verb(state)
      && o.sent[0].url == PrimaryUrl(state, url, item)
      && var status := t(o.sent[0]).status;
         match Classify(state, status)
         case Applied => o.changed && !o.Rejection()
         case AlreadyInState => !o.changed && !o.Rejection()
         case Refused =>
           o.changed && o.Rejection()
           && Rejected(state, PrimaryUrl(state, url, item), t(o.sent[0]).body) in o.failures
           && o.failures == [Rejected(state, PrimaryUrl(state, url, item), t(o.sent[0]).body)]
  {
  }

  /** A document without a name is never sent for `absent`, `replace` or
      `update`: the item fails with a missing-name failure and no request. */
  lemma MissingNameSendsNothing(state: State, t: Transport, c: Credentials, url: string, item: Item)
    requires state != Present && item.Name().None?
    ensures Reconcile(state, t, c, url, item).sent == []
    ensures Reconcile(state, t, c, url, item).failures == [MissingName(state)]
    ensures !Reconcile(state, t, c, url, item).changed
  {
  }
}
